=== FILE: README.md ===
# du improved — a Dafny model of its core

"du improved" (`duim`) runs `du -d 1` on a target directory. It turns the
`size<TAB>path` lines that `du` prints into a dictionary from path to size. It
then prints one line per directory. The target directory's own line comes
first and has no bar. Every other directory gets a fixed-width bar of `=`
characters showing its share of the reference value. The reference value is
the sum of all sizes, the target's own size included.

The core is three functions. `percent_to_graph`, `create_dir_dict` and
`display_results` are in `a2_mcarlos5.py`. The first two are repeated, line for
line, in `duim.py`. One Dafny definition serves both copies. Every property
holds for both, and each row of the table below cites one of the two copies.

Modules:

| module | file | models |
|---|---|---|
| `Wrappers` | wrappers.dfy | `Option` and `Result`, which stand for Python's raised exceptions |
| `Rounding` | rounding.dfy | Python 3's `round` on one number: nearest integer, a tie goes to the even one |
| `Graph` | graph.dfy | `percent_to_graph` |
| `Decimal` | decimal.dfy | `int(s)` on a decimal literal (optional sign, ASCII digits), and its inverse `str(n)` |
| `DirTable` | dirtable.dfy | `create_dir_dict`, with the dictionary modelled as an insertion-ordered list of (path, size) pairs with distinct paths |
| `Report` | report.dfy | `display_results`, which returns the printed lines as `Row` values instead of printing them |
| `Pipeline` | pipeline.dfy | the main block: `du`'s lines feed `create_dir_dict`, and its result feeds `display_results` |

Modelling decisions:
- Each exception the source can raise is a `Failure` value that says which one it is:
  - `ValueError` from the unpacking `size, path = entry.split("\t")` is `NotTwoFields`.
  - `ValueError` from `int(size)` is `SizeNotInteger`.
  - `KeyError` on `dir_dict[target_dir]` is `MissingTarget`.
  - `ZeroDivisionError` in `size / total_size` is `ZeroTotal`.
  - `ValueError` from `percent_to_graph` is `BadPercent`.
- A table error records the index of the first line that fails.
- Percentages are exact rationals (`real`), not IEEE doubles. `round` is round-half-to-even over those exact values.
- Python's `"=" * n` with `n <= 0` is the empty string. `Graph.Repeat` keeps that, so a negative width gives an empty bar, as the code does.
- A Python dictionary keeps the position of a key when its value is overwritten. `DirTable.Put` keeps it too. Last write wins for the value. Dictionary order is the order in which each path first appears.

Behaviour the model takes from the code:
- The target's line never has a bar (`a2_mcarlos5.py:100`), even though its size counts in the total.
- The code accepts a negative size: `int("-5")` is fine. What follows depends on the sizes, as `Report.SubdirRows` states. With a positive total, a negative child gives a negative percentage and `percent_to_graph` raises (`Report.NegativeSizeRaises`). When the total is zero, the report raises `ZeroDivisionError` as soon as the loop reaches an item that is not the target. A target with no other key gives a report of its own line only, whatever its size, because the loop skips it and never divides (`Report.TargetOnly`). With a negative total, the report can succeed. For example, a target of 0 with two children of -1 gives a total of -2, and each child is drawn at 50 percent (`Report.NegativeTotalExample`).
- The code accepts any bar width, including zero and negative widths. `-l` is a plain `int` option.
- A size field may carry a sign or leading zeros (`"+007"`), as `int` allows.

## Model

| member | source | states |
|---|---|---|
| `Rounding.RoundHalfEven` | a2_mcarlos5.py:70 | the result of `round` is an integer within 0.5 of its argument, and on an exact tie it is the even one |
| `Rounding.NearestEvenUnique` | duim.py:51 | that property pins down one integer, so it specifies `round` completely |
| `Rounding.RoundMonotone` | a2_mcarlos5.py:70 | `round` never reverses the order of two numbers |
| `Rounding.RoundExact` | duim.py:51 | `round` leaves an integer unchanged |
| `Graph.FillBounds` | duim.py:51-52 | for a percentage in [0, 100] the number of `=` characters lies between 0 and the width, so the bar is never longer than the width |
| `Graph.Repeat` | a2_mcarlos5.py:71 | Python's `c * n`: `n` copies of `c`, and the empty string when `n` is zero or negative |
| `Graph.PercentToGraph` | a2_mcarlos5.py:58-71 | raises exactly when the percentage is outside [0, 100]; otherwise, for a non-negative width, it returns exactly `width` characters, `round(percent/100*width)` `=` characters followed only by spaces; for a negative width it returns the empty string |
| `Graph.GraphEmpty` | a2_mcarlos5.py:71 | 0 percent gives a bar of spaces only |
| `Graph.GraphFull` | duim.py:52 | 100 percent gives a bar of `=` only |
| `Graph.GraphHalfExample` | duim.py:42 | the docstring example: 50 percent at width 10 is `"=====     "` |
| `Graph.FillMonotone` | a2_mcarlos5.py:67-70 | at a fixed non-negative width, a larger percentage never gets fewer `=` characters |
| `Graph.BarMonotone` | duim.py:48-52 | every `=` position in the bar of a smaller percentage is also `=` in the bar of a larger one |
| `Decimal.ParseInt` | a2_mcarlos5.py:85 | `int(s)` succeeds exactly on an optional sign followed by at least one digit; the value is the decimal value of the digits, negated after a `-` and unchanged after a `+` or with no sign, leading zeros allowed |
| `Decimal.ShowInt` | duim.py:66 | the decimal spelling of a size is always a literal that `int` accepts, with no `+` sign |
| `Decimal.ParseShow` | a2_mcarlos5.py:84-85 | `int(str(n)) == n` for every integer `n`, so every size `du` can print is read back unchanged |
| `Decimal.ParseIntExamples` | duim.py:65-66 | leading zeros and a sign are accepted; an empty field, a lone sign or a unit suffix such as `4K` is refused |
| `DirTable.SplitTab` | duim.py:65 | the two-name unpacking of `split("\t")` succeeds exactly when the line holds one tab; the line is then the two tab-free fields joined by it |
| `DirTable.SplitJoin` | a2_mcarlos5.py:84 | splitting two tab-free fields joined by a tab gives the two fields back |
| `DirTable.ParseEntry` | a2_mcarlos5.py:84-85 | one pass of the loop body: split on the tab, then convert the size; what it yields is stated by `DirTable.ParseEntryMeaning` (next row) and `DirTable.ParseFormat` |
| `DirTable.ParseEntryMeaning` | a2_mcarlos5.py:84-85 | a line is rejected for its field count exactly when it does not hold one tab; a rejected size field is the text before the tab and is not an integer literal; an accepted line is a size literal, a tab and a tab-free path, and yields that path and size |
| `DirTable.ParseFormat` | duim.py:64-66 | a line written as size, tab, tab-free path is read back as that path and size |
| `DirTable.Lookup` | a2_mcarlos5.py:100 | `dict[k]` raises exactly when `k` is not a key, and otherwise gives the size stored with `k` |
| `DirTable.Put` | a2_mcarlos5.py:85 | `dict[k] = v` adds `k` to the keys; an existing key keeps its position and every key keeps its place; a new key goes at the end; keys stay distinct |
| `DirTable.LookupPut` | duim.py:66 | after `dict[k] = v`, `k` maps to `v` and every other key maps to what it mapped to before |
| `DirTable.Without` | a2_mcarlos5.py:102-104 | the items the loop visits after skipping the target: none of them is the target, and each is an item of the dictionary |
| `DirTable.WithoutAbsent` | a2_mcarlos5.py:103-104 | skipping a key that is not in the dictionary skips nothing |
| `DirTable.WithoutSplit` | a2_mcarlos5.py:102-104 | skipping a key that is present removes exactly its item and keeps all the others in order |
| `DirTable.BuildDict` | duim.py:62-67 | the loop's dictionary has distinct keys, and its keys are exactly the paths of the converted lines |
| `DirTable.BuildLastWins` | a2_mcarlos5.py:83-85 | each path maps to the size of its last line |
| `DirTable.BuildOrder` | duim.py:64-66 | dictionary order is the order in which each path first appears |
| `DirTable.BuildDistinct` | duim.py:62-68 | with no repeated path, the dictionary holds the converted lines exactly, in order |
| `DirTable.ParseLines` | duim.py:64-66 | every line is split and converted in order; otherwise the error comes from the first line that fails, and every line before it succeeds |
| `DirTable.CreateDirDict` | a2_mcarlos5.py:73-87 | succeeds exactly when every line is well formed, and reports the first bad line otherwise; on success the keys are distinct and there are at most as many items as lines |
| `DirTable.CreateKeys` | duim.py:54-68 | the dictionary's keys are exactly the paths named in the input lines |
| `DirTable.CreateLastWins` | a2_mcarlos5.py:85 | a line whose path no later line repeats gives that path its size in the dictionary |
| `DirTable.CreateOrder` | duim.py:64-66 | the dictionary lists paths in the order of their first line |
| `DirTable.DuOutputRoundTrip` | a2_mcarlos5.py:83-87 | lines written for entries with distinct, tab-free paths build a dictionary equal to those entries, in the same order |
| `Report.SubdirRows` | a2_mcarlos5.py:102-111 | the loop succeeds exactly when, for every non-target item, the total is non-zero and the item's percentage lies in [0, 100]; with no non-target item it succeeds with no rows, even for a zero total; a failure is a zero division exactly when the total is zero; on success, row `i` is the size, the path and the bar of the `i`-th non-target item |
| `Report.DisplayResults` | a2_mcarlos5.py:89-111 | a missing target raises `KeyError`, and `KeyError` is raised only then; with the target present, a failure is `ZeroDivisionError` exactly when the total is zero and `percent_to_graph`'s `ValueError` otherwise; the call succeeds exactly when the target is present and every other item can be drawn against the sum of all sizes; row 0 is the target's size and path with no bar; row `i` is the `i`-th non-target item with its bar |
| `Report.Total` | a2_mcarlos5.py:97 | `sum(dir_dict.values())`; stated by `Report.TotalConcat`, `Report.TotalSplit` and `Report.TotalIncludesTarget` (next rows) |
| `Report.TotalConcat` | a2_mcarlos5.py:97 | the sum over two dictionaries' items laid end to end is the sum of the two sums |
| `Report.TotalSplit` | a2_mcarlos5.py:97 | removing one item from the items removes exactly its size from the sum |
| `Report.TotalIncludesTarget` | a2_mcarlos5.py:97 | the reference total is the target's own size plus the sizes of all the rows that get a bar |
| `Report.SizeAtMostTotal` | a2_mcarlos5.py:97-107 | with no negative size, each size lies between 0 and the total |
| `Report.Percent` | a2_mcarlos5.py:107 | `(size / total_size) * 100` over exact numbers, defined only for a non-zero total; stated by `Report.PercentShare` (next row) |
| `Report.PercentShare` | a2_mcarlos5.py:107 | the percentage taken of the total gives back 100 times the size, so it is the size's share of the total |
| `Report.PercentInRange` | a2_mcarlos5.py:107 | a share of a positive total lies in [0, 100] percent |
| `Report.NeverRaises` | a2_mcarlos5.py:107-108 | with the target present, no negative size and a positive total, `percent_to_graph` never raises, so the report is always produced |
| `Report.NegativeSizeRaises` | a2_mcarlos5.py:107-108 | with the target present and a positive total, any non-target item with a negative size makes the report raise the `ValueError` of `percent_to_graph` |
| `Report.NegativeTotalExample` | a2_mcarlos5.py:97-108 | sizes 0, -1 and -1 give a total of -2, each child's percentage is 50, and the report is produced |
| `Report.TargetOnly` | a2_mcarlos5.py:97-104 | a dictionary holding only the target gives exactly the target's own line, with no bar, for any size, zero included |
| `Report.DisplayLayout` | a2_mcarlos5.py:100-104 | the report has one line per key; the target moves to the front; an item before the target appears one line lower and an item after it keeps its index, each with its bar |
| `Report.ReportExample` | a2_mcarlos5.py:97-111 | the report for a target of 600 with children of 200 and 400 at width 10: the target line has no bar, then `"==        "` and `"===       "` |
| `Report.BarExample` | a2_mcarlos5.py:107-108 | 200 of 1200 at width 10 rounds 1.67 to 2 `=` characters; 400 of 1200 rounds 3.33 to 3 |
| `Pipeline.Run` | a2_mcarlos5.py:113-124 | on success every input line was well formed; there is one line per distinct path; the first line is the target with no bar; every later line is another path with a bar; the target is one of the listed paths |
| `Pipeline.DictSizeFromLine` | a2_mcarlos5.py:121 | every size in the dictionary is the size of some input line for that path |
| `Pipeline.RunSucceeds` | a2_mcarlos5.py:118-124 | on any well-formed `du` output with no negative size, where the target is listed with a positive size, the run does not raise |

## Left out

- `parse_command_args` (`a2_mcarlos5.py:30-45`) is not modelled. It is argument parsing and a directory-existence check against the filesystem. The target and the width are parameters of `Pipeline.Run`.
- `call_du_sub` (`a2_mcarlos5.py:47-56`, `duim.py:28-37`) is not modelled. It runs a subprocess. Its output lines are the `duOutput` parameter of `Pipeline.Run`.
- The `-H` flag is not modelled. It is parsed but nothing in these files reads it, and no human-readable size formatting exists in them.
- A reference value that is the maximum size rather than the sum is not modelled. No variant in these files computes it.
- The text layout of a printed line is not modelled: the `{size:<8}` padding and the separating spaces. A `Row` holds the size, the path and the bar.
- Partial output is not modelled. The source has printed the target's line, and the lines before the failing one, when the loop raises. A missing target raises `KeyError` while line 100 builds its string, so nothing is printed then. The model returns only the error.
- Floating point is not modelled. `size / total_size * 100` and `percent / 100 * total_chars` are computed exactly. A percentage that IEEE rounding pushes across a `.5` boundary, or a hair past 100, can therefore round differently.
- `Decimal.ParseInt`: `int` also accepts surrounding whitespace, `_` digit separators and non-ASCII decimal digits. Those spellings are refused here, because `du` never prints them.
- `Decimal.ParseInt` and `Decimal.ParseShow`: from Python 3.11 on, `int(s)` and `str(n)` raise `ValueError` on decimal strings of more than 4300 digits, the default of `sys.int_info.default_max_str_digits`. The model has no such limit. `du` never prints a size that long.
- The trailing `strip()` and the `split("\n")` of `du`'s output belong to `call_du_sub`. An empty `du` output gives the single line `""`, which `create_dir_dict` rejects with `NotTwoFields`.

=== FILE: decimal.dfy ===
/** The part of Python's `int(s)` and `str(n)` the scripts rely on: decimal
    integer literals made of an optional sign and ASCII digits. */
module Decimal {
  import opened Wrappers

  predicate IsDigit(c: char) {
    '0' <= c <= '9'
  }

  predicate AllDigits(s: string) {
    forall i :: 0 <= i < |s| ==> IsDigit(s[i])
  }

  /** The value of a digit string read most significant digit first
      (leading zeros allowed, as `int` allows them). */
  function DigitsValue(s: string): nat
    requires AllDigits(s)
  {
    if |s| == 0 then 0 else 10 * DigitsValue(s[..|s| - 1]) + (s[|s| - 1] - '0') as int
  }

  /** An optional `+` or `-` followed by at least one decimal digit. */
  predicate IsIntLiteral(s: string) {
    if |s| > 0 && (s[0] == '-' || s[0] == '+') then |s| > 1 && AllDigits(s[1..])
    else |s| > 0 && AllDigits(s)
  }

  /** `int(s)`: `None` stands for the `ValueError` raised on a string that is
      not an integer literal. */
  function ParseInt(s: string): (r: Option<int>)
    ensures r.Some? <==> IsIntLiteral(s)
    ensures r.Some? && r.value < 0 ==> s[0] == '-'
    ensures r.Some? && AllDigits(s) ==> r.value == DigitsValue(s)
    ensures r.Some? && s[0] == '-' ==> r.value == -(DigitsValue(s[1..]) as int)
    ensures r.Some? && s[0] == '+' ==> r.value == DigitsValue(s[1..])
  {
    if |s| > 0 && s[0] == '-' then
      if |s| > 1 && AllDigits(s[1..]) then Some(-(DigitsValue(s[1..]) as int)) else None
    else if |s| > 0 && s[0] == '+' then
      if |s| > 1 && AllDigits(s[1..]) then Some(DigitsValue(s[1..])) else None
    else if |s| > 0 && AllDigits(s) then Some(DigitsValue(s))
    else None
  }

  function DigitChar(d: nat): (c: char)
    requires d < 10
    ensures IsDigit(c) && (c - '0') as int == d
  {
    '0' + d as char
  }

  /** `str(n)` for a natural number: its shortest decimal spelling. */
  function ShowNat(n: nat): (s: string)
    ensures |s| > 0 && AllDigits(s)
    ensures n > 0 ==> s[0] != '0'
  {
    if n < 10 then [DigitChar(n)] else ShowNat(n / 10) + [DigitChar(n % 10)]
  }

  /** `str(n)` for any integer, as `du` writes a size. */
  function ShowInt(n: int): (s: string)
    ensures IsIntLiteral(s)
    ensures s[0] != '+'
  {
    if n < 0 then "-" + ShowNat(-n) else ShowNat(n)
  }

  /** Reading back the digits of `ShowNat(n)` gives `n`. */
  lemma {:induction false} ShowNatValue(n: nat)
    ensures DigitsValue(ShowNat(n)) == n
  {
    if n >= 10 {
      ShowNatValue(n / 10);
      var s := ShowNat(n);
      assert s[..|s| - 1] == ShowNat(n / 10);
    }
  }

  /** `int(str(n)) == n` for every integer. */
  lemma ParseShow(n: int)
    ensures ParseInt(ShowInt(n)) == Some(n)
  {
    if n < 0 {
      ShowNatValue(-n);
      assert ShowInt(n)[1..] == ShowNat(-n);
    } else {
      ShowNatValue(n);
    }
  }

  /** Leading zeros and an explicit sign are accepted, as `int` accepts
      them; an empty string or a stray character is not. */
  lemma ParseIntExamples()
    ensures ParseInt("007") == Some(7)
    ensures ParseInt("+12") == Some(12)
    ensures ParseInt("-40") == Some(-40)
    ensures ParseInt("") == None
    ensures ParseInt("-") == None
    ensures ParseInt("4K") == None
  {
    assert AllDigits("007") && DigitsValue("007") == 7 by {
      assert "007"[..2] == "00" && "00"[..1] == "0" && "0"[..0] == "";
    }
    assert "+12"[1..] == "12" && DigitsValue("12") == 12 by {
      assert "12"[..1] == "1" && "1"[..0] == "";
    }
    assert "-40"[1..] == "40" && DigitsValue("40") == 40 by {
      assert "40"[..1] == "4" && "4"[..0] == "";
    }
    assert !IsDigit("4K"[1]);
  }
}

=== FILE: dirtable.dfy ===
/** `create_dir_dict`: the lines written by `du -d 1`, each `size<TAB>path`,
    turned into a dictionary from path to integer size. The function is
    identical in both scripts (a2_mcarlos5.py and duim.py) and is modelled
    once. */
module DirTable {
  import opened Wrappers
  import opened Decimal

  /** A Python dict from path to size, as the sequence of its items in
      iteration (insertion) order. */
  type Dict = seq<(string, int)>

  /** The paths of a sequence of (path, size) pairs. */
  function Keys(d: Dict): set<string> {
    set i | 0 <= i < |d| :: d[i].0
  }

  /** The paths of a concatenation are the paths of its parts. */
  lemma KeysConcat(a: Dict, b: Dict)
    ensures Keys(a + b) == Keys(a) + Keys(b)
  {
    var c := a + b;
    forall x | x in Keys(c)
      ensures x in Keys(a) + Keys(b)
    {
      var i :| 0 <= i < |c| && c[i].0 == x;
      if i < |a| {
        assert a[i] == c[i];
      } else {
        assert b[i - |a|] == c[i];
      }
    }
    forall x | x in Keys(a) + Keys(b)
      ensures x in Keys(c)
    {
      if x in Keys(a) {
        var i :| 0 <= i < |a| && a[i].0 == x;
        assert c[i] == a[i];
      } else {
        var i :| 0 <= i < |b| && b[i].0 == x;
        assert c[|a| + i] == b[i];
      }
    }
  }

  /** No path occurs twice: true of every Python dict. */
  predicate DistinctKeys(d: Dict) {
    forall i, j :: 0 <= i < j < |d| ==> d[i].0 != d[j].0
  }

  /** Position of the first pair whose path is `k`; `|d|` when there is none. */
  function IndexOf(d: Dict, k: string): (r: nat)
    ensures r <= |d|
    ensures r < |d| <==> k in Keys(d)
    ensures r < |d| ==> d[r].0 == k
    ensures forall j :: 0 <= j < r ==> d[j].0 != k
  {
    if |d| == 0 then 0
    else if d[0].0 == k then 0
    else
      assert forall j :: 1 <= j < |d| ==> d[j] == d[1..][j - 1];
      1 + IndexOf(d[1..], k)
  }

  /** `dict[k]`; `None` stands for the `KeyError` of a missing key. */
  function Lookup(d: Dict, k: string): (r: Option<int>)
    ensures r.None? <==> k !in Keys(d)
    ensures DistinctKeys(d) ==> forall i :: 0 <= i < |d| && d[i].0 == k ==> r == Some(d[i].1)
  {
    var i := IndexOf(d, k);
    if i < |d| then Some(d[i].1) else None
  }

  /** `dict[k] = v`: a new key goes to the end; an existing key keeps its
      position and only its value changes. */
  function Put(d: Dict, k: string, v: int): (r: Dict)
    ensures Keys(r) == Keys(d) + {k}
    ensures k in Keys(d) ==> |r| == |d| && forall i :: 0 <= i < |d| ==> r[i].0 == d[i].0
    ensures k !in Keys(d) ==> r == d + [(k, v)]
    ensures DistinctKeys(d) ==> DistinctKeys(r)
  {
    if k in Keys(d) then
      var r := seq(|d|, i requires 0 <= i < |d| => if d[i].0 == k then (k, v) else d[i]);
      assert forall i :: 0 <= i < |d| ==> r[i].0 == d[i].0;
      assert Keys(r) == Keys(d);
      r
    else
      var r := d + [(k, v)];
      assert r[|d|].0 == k && forall i :: 0 <= i < |d| ==> r[i] == d[i];
      assert Keys(r) == Keys(d) + {k};
      r
  }

  /** After `dict[k] = v`, `k` maps to `v` and every other key maps to what
      it mapped to before. */
  lemma LookupPut(d: Dict, k: string, v: int, k': string)
    requires DistinctKeys(d)
    ensures Lookup(Put(d, k, v), k') == if k' == k then Some(v) else Lookup(d, k')
  {
    var r := Put(d, k, v);
    if k' == k {
      var i := if k in Keys(d) then IndexOf(d, k) else |d|;
      assert r[i] == (k, v);
    } else if k' in Keys(d) {
      var i := IndexOf(d, k');
      assert r[i] == d[i];
    }
  }

  /** The items of `d` whose path is not `k`, in order: the items a loop
      over `d` visits when it skips `k`. */
  function Without(d: Dict, k: string): (r: Dict)
    ensures |r| <= |d|
    ensures forall i :: 0 <= i < |r| ==> r[i].0 != k && r[i] in d
  {
    if |d| == 0 then []
    else if d[0].0 == k then Without(d[1..], k)
    else [d[0]] + Without(d[1..], k)
  }

  /** A key that is absent leaves every item in place. */
  lemma {:induction false} WithoutAbsent(d: Dict, k: string)
    requires k !in Keys(d)
    ensures Without(d, k) == d
  {
    if |d| > 0 {
      KeysConcat([d[0]], d[1..]);
      assert d == [d[0]] + d[1..];
      WithoutAbsent(d[1..], k);
    }
  }

  /** In a dictionary, skipping a key that is present removes exactly its
      one item and keeps the others in order. */
  lemma {:induction false} WithoutSplit(d: Dict, k: string)
    requires DistinctKeys(d) && k in Keys(d)
    ensures Without(d, k) == d[..IndexOf(d, k)] + d[IndexOf(d, k) + 1..]
  {
    var rest := d[1..];
    assert d == [d[0]] + rest;
    KeysConcat([d[0]], rest);
    assert Keys([d[0]]) == {d[0].0} by {
      assert [d[0]][0] == d[0];
    }
    if d[0].0 == k {
      assert k !in Keys(rest);
      WithoutAbsent(rest, k);
    } else {
      assert DistinctKeys(rest);
      WithoutSplit(rest, k);
      var t := IndexOf(rest, k);
      assert IndexOf(d, k) == 1 + t;
      assert d[..1 + t] == [d[0]] + rest[..t];
      assert d[1 + t + 1..] == rest[t + 1..];
    }
  }

  /** The value of the last pair whose path is `k`. */
  function LastValue(es: seq<(string, int)>, k: string): (r: Option<int>)
    ensures r.None? <==> k !in Keys(es)
    ensures r.Some? ==> (k, r.value) in es
  {
    if |es| == 0 then None
    else
      var n := |es| - 1;
      assert Keys(es) == Keys(es[..n]) + {es[n].0};
      if es[n].0 == k then Some(es[n].1) else LastValue(es[..n], k)
  }

  /** The loop of `create_dir_dict` over entries that have already been
      split and converted: `dir_dict[path] = size` for each in turn. */
  function BuildDict(es: seq<(string, int)>): (d: Dict)
    ensures DistinctKeys(d)
    ensures Keys(d) == Keys(es)
  {
    if |es| == 0 then []
    else
      var n := |es| - 1;
      assert Keys(es) == Keys(es[..n]) + {es[n].0};
      Put(BuildDict(es[..n]), es[n].0, es[n].1)
  }

  /** Last write wins: each path maps to the size of its last entry. */
  lemma {:induction false} BuildLastWins(es: seq<(string, int)>, k: string)
    ensures Lookup(BuildDict(es), k) == LastValue(es, k)
  {
    if |es| > 0 {
      var n := |es| - 1;
      BuildLastWins(es[..n], k);
      LookupPut(BuildDict(es[..n]), es[n].0, es[n].1, k);
    }
  }

  /** The first occurrence of a key in a prefix is its first occurrence in
      any extension of that prefix. */
  lemma IndexOfPrefix(p: Dict, q: Dict, k: string)
    requires k in Keys(p)
    ensures IndexOf(p + q, k) == IndexOf(p, k)
  {
    var a := IndexOf(p, k);
    assert (p + q)[a] == p[a];
  }

  /** Dictionary order is first-insertion order: keys appear in the order of
      their first occurrence among the entries. */
  lemma {:induction false} BuildOrder(es: seq<(string, int)>)
    ensures forall i, j :: 0 <= i < j < |BuildDict(es)| ==>
              IndexOf(es, BuildDict(es)[i].0) < IndexOf(es, BuildDict(es)[j].0)
  {
    if |es| > 0 {
      var n := |es| - 1;
      var p, e := es[..n], es[n];
      assert es == p + [e];
      BuildOrder(p);
      var d', d := BuildDict(p), BuildDict(es);
      forall i, j | 0 <= i < j < |d|
        ensures IndexOf(es, d[i].0) < IndexOf(es, d[j].0)
      {
        assert d[i].0 in Keys(d);
        if e.0 in Keys(p) {
          assert d[i].0 == d'[i].0 && d[j].0 == d'[j].0;
          assert d'[j].0 in Keys(d');
          IndexOfPrefix(p, [e], d[i].0);
          IndexOfPrefix(p, [e], d[j].0);
        } else if j < |d'| {
          assert d[i] == d'[i] && d[j] == d'[j];
          assert d'[i].0 in Keys(d') && d'[j].0 in Keys(d');
          IndexOfPrefix(p, [e], d[i].0);
          IndexOfPrefix(p, [e], d[j].0);
        } else {
          assert d[i] == d'[i];
          assert d'[i].0 in Keys(d');
          IndexOfPrefix(p, [e], d[i].0);
          assert d[j].0 == e.0 && es[n] == e;
          assert IndexOf(es, e.0) == n;
        }
      }
    }
  }

  /** Number of tab characters in `s`. */
  function TabCount(s: string): nat {
    multiset(s)['\t']
  }

  /** Position of the first tab in `s`; `|s|` when there is none. */
  function FirstTab(s: string): (i: nat)
    ensures i <= |s|
    ensures i < |s| ==> s[i] == '\t'
    ensures '\t' !in s[..i]
  {
    if |s| == 0 then 0
    else if s[0] == '\t' then 0
    else
      var i := 1 + FirstTab(s[1..]);
      assert s[..i] == [s[0]] + s[1..][..i - 1];
      i
  }

  /** `size, path = s.split("\t")`: succeeds exactly when `s` holds one tab,
      and then `s` is the two fields joined by it. */
  function SplitTab(s: string): (r: Option<(string, string)>)
    ensures r.Some? <==> TabCount(s) == 1
    ensures r.Some? ==> s == r.value.0 + "\t" + r.value.1
    ensures r.Some? ==> '\t' !in r.value.0 && '\t' !in r.value.1
  {
    var i := FirstTab(s);
    if i == |s| then
      assert s[..i] == s;
      None
    else
      assert s == s[..i] + "\t" + s[i + 1..];
      assert multiset(s) == multiset(s[..i]) + multiset("\t") + multiset(s[i + 1..]);
      if '\t' in s[i + 1..] then None else Some((s[..i], s[i + 1..]))
  }

  /** Joining two tab-free fields with a tab and splitting again gives the
      fields back. */
  lemma SplitJoin(a: string, b: string)
    requires '\t' !in a && '\t' !in b
    ensures SplitTab(a + "\t" + b) == Some((a, b))
  {
    var s := a + "\t" + b;
    assert multiset(s) == multiset(a) + multiset("\t") + multiset(b);
    assert multiset(a)['\t'] == 0 && multiset(b)['\t'] == 0;
    var r := SplitTab(s);
    var a', b' := r.value.0, r.value.1;
    assert a' == s[..|a|] == a;
    assert b' == s[|a| + 1..] == b;
  }

  /** Why a single line is rejected: it does not split into exactly two
      fields, or its size field is not an integer. */
  datatype EntryError = NotTwoFields | SizeNotInteger(field: string)

  /** One iteration of the loop: split on the tab, convert the size. */
  function ParseEntry(entry: string): Result<(string, int), EntryError> {
    match SplitTab(entry)
    case None => Failure(NotTwoFields)
    case Some(fields) =>
      match ParseInt(fields.0)
      case None => Failure(SizeNotInteger(fields.0))
      case Some(n) => Success((fields.1, n))
  }

  /** What one line yields: a line without exactly one tab is rejected as
      not having two fields; otherwise the part before the tab must be an
      integer literal, which becomes the size of the path after the tab. */
  lemma ParseEntryMeaning(entry: string)
    ensures ParseEntry(entry) == Failure(NotTwoFields) <==> TabCount(entry) != 1
    ensures ParseEntry(entry).Failure? && ParseEntry(entry).error.SizeNotInteger? ==>
              var field := ParseEntry(entry).error.field;
              !IsIntLiteral(field) && field + "\t" <= entry
    ensures ParseEntry(entry).Success? ==>
              var (path, size) := ParseEntry(entry).value;
              && '\t' !in path
              && exists sizeField :: entry == sizeField + "\t" + path && ParseInt(sizeField) == Some(size)
  {
  }

  /** A `du` output line: the size, a tab, the path. */
  function FormatEntry(size: int, path: string): string {
    ShowInt(size) + "\t" + path
  }

  /** Every line `du` can write for a tab-free path is read back as that
      path and size. */
  lemma ParseFormat(size: int, path: string)
    requires '\t' !in path
    ensures ParseEntry(FormatEntry(size, path)) == Success((path, size))
  {
    var s := ShowInt(size);
    assert '\t' !in s by {
      forall i | 0 <= i < |s| ensures s[i] != '\t' {
        if i > 0 || !(s[0] == '-' || s[0] == '+') {
          assert IsDigit(s[i]);
        }
      }
    }
    SplitJoin(s, path);
    ParseShow(size);
  }

  /** The error raised for the line at `index`. */
  datatype TableError = BadEntry(index: nat, cause: EntryError)

  /** The values of a sequence of outcomes, or the position of the first
      failure: a loop that stops at the first exception. */
  function Collect<T, E>(rs: seq<Result<T, E>>): (r: Result<seq<T>, nat>)
    ensures r.Success? <==> forall i :: 0 <= i < |rs| ==> rs[i].Success?
    ensures r.Success? ==> |r.value| == |rs|
    ensures r.Success? ==> forall i :: 0 <= i < |rs| ==> r.value[i] == rs[i].value
    ensures r.Failure? ==> && r.error < |rs| && rs[r.error].Failure?
                           && forall j :: 0 <= j < r.error ==> rs[j].Success?
  {
    if |rs| == 0 then Success([])
    else
      var n := |rs| - 1;
      match Collect(rs[..n])
      case Failure(i) => Failure(i)
      case Success(vs) =>
        if rs[n].Failure? then Failure(n) else Success(vs + [rs[n].value])
  }

  /** Every line split and converted, in order, or the error of the first
      line that cannot be. */
  function ParseLines(lines: seq<string>): (r: Result<seq<(string, int)>, TableError>)
    ensures r.Success? <==> forall i :: 0 <= i < |lines| ==> ParseEntry(lines[i]).Success?
    ensures r.Success? ==> |r.value| == |lines|
    ensures r.Success? ==> forall i :: 0 <= i < |lines| ==> r.value[i] == ParseEntry(lines[i]).value
    ensures r.Failure? ==> && r.error.index < |lines|
                           && ParseEntry(lines[r.error.index]) == Failure(r.error.cause)
                           && forall j :: 0 <= j < r.error.index ==> ParseEntry(lines[j]).Success?
  {
    var rs := seq(|lines|, i requires 0 <= i < |lines| => ParseEntry(lines[i]));
    assert forall i :: 0 <= i < |lines| ==> rs[i] == ParseEntry(lines[i]);
    match Collect(rs)
    case Failure(i) => Failure(BadEntry(i, rs[i].error))
    case Success(es) => Success(es)
  }

  /** `create_dir_dict(du_output_list)`. The source converts and inserts
      line by line, but an error leaves no dictionary behind, so converting
      every line first and then inserting gives the same outcome. */
  function CreateDirDict(lines: seq<string>): (r: Result<Dict, TableError>)
    ensures r.Success? <==> forall i :: 0 <= i < |lines| ==> ParseEntry(lines[i]).Success?
    ensures r.Failure? ==> && r.error.index < |lines|
                           && ParseEntry(lines[r.error.index]) == Failure(r.error.cause)
                           && forall j :: 0 <= j < r.error.index ==> ParseEntry(lines[j]).Success?
    ensures r.Success? ==> DistinctKeys(r.value)
    ensures r.Success? ==> |r.value| <= |lines|
  {
    match ParseLines(lines)
    case Failure(e) => Failure(e)
    case Success(es) =>
      var d := BuildDict(es);
      DistinctCard(d);
      assert |d| == |Keys(es)| <= |es| by { KeysCard(es); }
      Success(d)
  }

  /** The paths named by a sequence of well-formed lines. */
  ghost function PathsOf(lines: seq<string>): set<string>
    requires forall i :: 0 <= i < |lines| ==> ParseEntry(lines[i]).Success?
  {
    set i | 0 <= i < |lines| :: ParseEntry(lines[i]).value.0
  }

  /** The dictionary's keys are exactly the paths named in the input. */
  lemma CreateKeys(lines: seq<string>)
    requires forall i :: 0 <= i < |lines| ==> ParseEntry(lines[i]).Success?
    ensures Keys(CreateDirDict(lines).value) == PathsOf(lines)
  {
    var es := ParseLines(lines).value;
    assert Keys(es) == PathsOf(lines);
  }

  /** There are never more distinct paths than pairs. */
  lemma KeysCard(es: seq<(string, int)>)
    ensures |Keys(es)| <= |es|
  {
    if |es| > 0 {
      var n := |es| - 1;
      assert Keys(es) == Keys(es[..n]) + {es[n].0};
      KeysCard(es[..n]);
    }
  }

  /** A dictionary has exactly as many items as distinct paths. */
  lemma DistinctCard(d: Dict)
    requires DistinctKeys(d)
    ensures |Keys(d)| == |d|
  {
    if |d| > 0 {
      var n := |d| - 1;
      assert Keys(d) == Keys(d[..n]) + {d[n].0};
      assert d[n].0 !in Keys(d[..n]);
      DistinctCard(d[..n]);
    }
  }

  /** Only the last entry for a path decides its value. */
  lemma {:induction false} LastValueAt(es: seq<(string, int)>, i: nat)
    requires i < |es|
    requires forall j :: i < j < |es| ==> es[j].0 != es[i].0
    ensures LastValue(es, es[i].0) == Some(es[i].1)
  {
    var n := |es| - 1;
    if i < n {
      LastValueAt(es[..n], i);
    }
  }

  /** Last write wins, line by line: a line whose path no later line repeats
      gives that path its size in the dictionary. */
  lemma CreateLastWins(lines: seq<string>, i: nat)
    requires forall k :: 0 <= k < |lines| ==> ParseEntry(lines[k]).Success?
    requires i < |lines|
    requires forall j :: i < j < |lines| ==> ParseEntry(lines[j]).value.0 != ParseEntry(lines[i]).value.0
    ensures Lookup(CreateDirDict(lines).value, ParseEntry(lines[i]).value.0) == Some(ParseEntry(lines[i]).value.1)
  {
    var es := ParseLines(lines).value;
    BuildLastWins(es, es[i].0);
    LastValueAt(es, i);
  }

  /** The dictionary lists its paths in the order in which each first
      appears in the input. */
  lemma CreateOrder(lines: seq<string>)
    requires forall i :: 0 <= i < |lines| ==> ParseEntry(lines[i]).Success?
    ensures var d, es := CreateDirDict(lines).value, ParseLines(lines).value;
            forall a, b :: 0 <= a < b < |d| ==> IndexOf(es, d[a].0) < IndexOf(es, d[b].0)
  {
    BuildOrder(ParseLines(lines).value);
  }

  /** With no repeated path the dictionary holds the entries exactly as
      given, in the same order. */
  lemma {:induction false} BuildDistinct(es: seq<(string, int)>)
    requires DistinctKeys(es)
    ensures BuildDict(es) == es
  {
    if |es| > 0 {
      var n := |es| - 1;
      assert DistinctKeys(es[..n]);
      BuildDistinct(es[..n]);
      assert es[n].0 !in Keys(es[..n]);
      assert es == es[..n] + [es[n]];
    }
  }

  /** Lines that each convert to the corresponding entry build the
      dictionary of those entries. */
  lemma LinesAs(lines: seq<string>, es: seq<(string, int)>)
    requires |lines| == |es|
    requires forall i :: 0 <= i < |lines| ==> ParseEntry(lines[i]) == Success(es[i])
    ensures CreateDirDict(lines) == Success(BuildDict(es))
  {
    ParsedAs(lines, es);
  }

  /** The conversion step alone: each line read as the entry at its index. */
  lemma ParsedAs(lines: seq<string>, es: seq<(string, int)>)
    requires |lines| == |es|
    requires forall i :: 0 <= i < |lines| ==> ParseEntry(lines[i]) == Success(es[i])
    ensures ParseLines(lines) == Success(es)
  {
    var r := ParseLines(lines);
    forall i | 0 <= i < |es|
      ensures r.value[i] == es[i]
    {
      assert r.value[i] == ParseEntry(lines[i]).value;
    }
    assert r.value == es;
  }

  /** The output of `du` read back: lines written from entries with
      distinct, tab-free paths build a dictionary holding exactly those
      entries, in the same order. */
  lemma DuOutputRoundTrip(es: seq<(string, int)>)
    requires DistinctKeys(es)
    requires forall i :: 0 <= i < |es| ==> '\t' !in es[i].0
    ensures CreateDirDict(seq(|es|, i requires 0 <= i < |es| => FormatEntry(es[i].1, es[i].0))) == Success(es)
  {
    var lines := seq(|es|, i requires 0 <= i < |es| => FormatEntry(es[i].1, es[i].0));
    forall i | 0 <= i < |es|
      ensures ParseEntry(lines[i]) == Success(es[i])
    {
      ParseFormat(es[i].1, es[i].0);
    }
    LinesAs(lines, es);
    BuildDistinct(es);
  }
}

=== FILE: graph.dfy ===
/** `percent_to_graph`: a percentage drawn as a fixed-width bar of `=`
    characters padded with spaces. The function is identical in both scripts
    (a2_mcarlos5.py and duim.py) and is modelled once. */
module Graph {
  import opened Wrappers
  import opened Rounding

  /** The `ValueError` raised for a percentage outside [0, 100]. */
  datatype GraphError = PercentOutOfRange(percent: real)

  /** Python's `c * n` for a one-character string `c`: `n` copies of `c`,
      and the empty string when `n` is zero or negative. */
  function Repeat(c: char, n: int): (s: string)
    ensures |s| == if n <= 0 then 0 else n
    ensures forall i :: 0 <= i < |s| ==> s[i] == c
  {
    if n <= 0 then [] else seq(n, _ => c)
  }

  /** The guard `0 <= percent <= 100`. */
  predicate InRange(percent: real) {
    0.0 <= percent <= 100.0
  }

  /** The quantity that is rounded: `(percent / 100) * total_chars`. */
  function Scaled(percent: real, totalChars: int): real {
    percent / 100.0 * totalChars as real
  }

  /** Number of `=` characters: `round(percent / 100 * total_chars)`. */
  function FillCount(percent: real, totalChars: int): int {
    RoundHalfEven(Scaled(percent, totalChars))
  }

  /** `s` has `width` characters: `fill` `=` characters, then spaces. */
  predicate IsBar(s: string, fill: int, width: int) {
    && |s| == width
    && forall i :: 0 <= i < |s| ==> s[i] == (if i < fill then '=' else ' ')
  }

  /** A fraction `q` in [0, 1] of `w` lies between 0 and `w`. */
  lemma FractionBetween(q: real, w: real)
    requires 0.0 <= q <= 1.0
    ensures w >= 0.0 ==> 0.0 <= q * w <= w
    ensures w < 0.0 ==> w <= q * w <= 0.0
  {
  }

  /** The quantity `round` is applied to lies between 0 and the width. */
  lemma ScaledBetween(percent: real, totalChars: int)
    requires InRange(percent)
    ensures totalChars >= 0 ==> 0 as real <= Scaled(percent, totalChars) <= totalChars as real
    ensures totalChars < 0 ==> totalChars as real <= Scaled(percent, totalChars) <= 0 as real
  {
    FractionBetween(percent / 100.0, totalChars as real);
  }

  /** For a valid percentage the fill count lies between 0 and the width
      (between the width and 0 when the width is negative). */
  lemma FillBounds(percent: real, totalChars: int)
    requires InRange(percent)
    ensures totalChars >= 0 ==> 0 <= FillCount(percent, totalChars) <= totalChars
    ensures totalChars < 0 ==> totalChars <= FillCount(percent, totalChars) <= 0
  {
    var x := Scaled(percent, totalChars);
    ScaledBetween(percent, totalChars);
    if totalChars >= 0 {
      RoundWithin(x, 0, totalChars);
    } else {
      RoundWithin(x, totalChars, 0);
    }
  }

  /** percent_to_graph(percent, total_chars). */
  function PercentToGraph(percent: real, totalChars: int): (r: Result<string, GraphError>)
    ensures r.Failure? <==> !InRange(percent)
    ensures r.Failure? ==> r.error == PercentOutOfRange(percent)
    ensures r.Success? && totalChars >= 0 ==> IsBar(r.value, FillCount(percent, totalChars), totalChars)
    ensures r.Success? && totalChars < 0 ==> r.value == []
  {
    if !InRange(percent) then Failure(PercentOutOfRange(percent))
    else
      var filled := FillCount(percent, totalChars);
      FillBounds(percent, totalChars);
      Success(Repeat('=', filled) + Repeat(' ', totalChars - filled))
  }

  /** Percentage 0 gives a bar of spaces only. */
  lemma GraphEmpty(totalChars: int)
    ensures PercentToGraph(0.0, totalChars) == Success(Repeat(' ', totalChars))
  {
    assert Scaled(0.0, totalChars) == 0 as real;
    RoundExact(0);
    assert Repeat('=', 0) + Repeat(' ', totalChars - 0) == Repeat(' ', totalChars);
  }

  /** Percentage 100 gives a bar of `=` only. */
  lemma GraphFull(totalChars: int)
    ensures PercentToGraph(100.0, totalChars) == Success(Repeat('=', totalChars))
  {
    assert Scaled(100.0, totalChars) == totalChars as real;
    RoundExact(totalChars);
    assert Repeat('=', totalChars) + Repeat(' ', 0) == Repeat('=', totalChars);
  }

  /** The docstring example: `percent_to_graph(50, 10)` is five `=` and
      five spaces. */
  lemma GraphHalfExample()
    ensures PercentToGraph(50.0, 10) == Success("=====     ")
  {
    RoundExact(5);
    assert Scaled(50.0, 10) == 5 as real;
    assert Repeat('=', 5) + Repeat(' ', 5) == "=====     ";
  }

  /** For a fixed non-negative width, a larger percentage never gets fewer
      `=` characters. */
  lemma FillMonotone(p: real, q: real, totalChars: int)
    requires p <= q && totalChars >= 0
    ensures FillCount(p, totalChars) <= FillCount(q, totalChars)
  {
    assert Scaled(q, totalChars) - Scaled(p, totalChars) == (q / 100.0 - p / 100.0) * totalChars as real;
    assert (q / 100.0 - p / 100.0) * totalChars as real >= 0.0;
    RoundMonotone(Scaled(p, totalChars), Scaled(q, totalChars));
  }

  /** The bar of a larger percentage covers the bar of a smaller one: every
      `=` position of the first is an `=` position of the second. */
  lemma BarMonotone(p: real, q: real, totalChars: int)
    requires InRange(p) && InRange(q) && p <= q && totalChars >= 0
    ensures PercentToGraph(p, totalChars).Success? && PercentToGraph(q, totalChars).Success?
    ensures forall i :: 0 <= i < totalChars && PercentToGraph(p, totalChars).value[i] == '='
              ==> PercentToGraph(q, totalChars).value[i] == '='
  {
    FillMonotone(p, q, totalChars);
  }
}

=== FILE: pipeline.dfy ===
/** The main block of a2_mcarlos5.py with the command line and the `du`
    process taken out: the lines `du -d 1` printed are given, the table is
    built from them and the report is produced from the table. */
module Pipeline {
  import opened Wrappers
  import opened DirTable
  import opened Report

  /** The stage that raised. */
  datatype DuimError = TableFailed(table: TableError) | ReportFailed(report: ReportError)

  /** `create_dir_dict` followed by `display_results`. */
  function Run(duOutput: seq<string>, target: string, graphLength: int): (r: Result<seq<Row>, DuimError>)
    ensures r.Success? ==> forall i :: 0 <= i < |duOutput| ==> ParseEntry(duOutput[i]).Success?
    ensures r.Success? ==> |r.value| == |PathsOf(duOutput)|
    ensures r.Success? ==> |r.value| > 0 && r.value[0].path == target && r.value[0].bar.None?
    ensures r.Success? ==> forall i :: 1 <= i < |r.value| ==> r.value[i].path != target && r.value[i].bar.Some?
    ensures r.Success? ==> target in PathsOf(duOutput)
  {
    match CreateDirDict(duOutput)
    case Failure(e) => Failure(TableFailed(e))
    case Success(d) =>
      match DisplayResults(target, d, graphLength)
      case Failure(e) => Failure(ReportFailed(e))
      case Success(rows) =>
        CreateKeys(duOutput);
        RunShape(target, d, graphLength);
        Success(rows)
  }

  /** The shape of a produced report, stated on the dictionary. */
  lemma RunShape(target: string, d: Dict, graphLength: int)
    requires DistinctKeys(d)
    requires DisplayResults(target, d, graphLength).Success?
    ensures var rows := DisplayResults(target, d, graphLength).value;
            && |rows| == |Keys(d)|
            && rows[0].path == target && rows[0].bar.None?
            && forall i :: 1 <= i < |rows| ==> rows[i].path != target && rows[i].bar.Some?
  {
    var rows := DisplayResults(target, d, graphLength).value;
    var w := Without(d, target);
    DistinctCard(d);
    WithoutSplit(d, target);
    forall i | 1 <= i < |rows|
      ensures rows[i].path != target && rows[i].bar.Some?
    {
      assert RowFor(rows[i], w[i - 1], Total(d), graphLength);
    }
  }

  /** A size in the dictionary is the size of some line for that path. */
  lemma DictSizeFromLine(lines: seq<string>, i: nat)
    requires CreateDirDict(lines).Success?
    requires i < |CreateDirDict(lines).value|
    ensures exists j :: 0 <= j < |lines| && ParseEntry(lines[j]).value == CreateDirDict(lines).value[i]
  {
    var d, es := CreateDirDict(lines).value, ParseLines(lines).value;
    var k := d[i].0;
    assert k in Keys(d);
    BuildLastWins(es, k);
    assert (k, d[i].1) in es;
  }

  /** Under the hypotheses of `RunSucceeds`, the dictionary has no negative
      size and the target maps to a positive one. */
  lemma DictFromGoodLines(duOutput: seq<string>, target: string)
    requires forall i :: 0 <= i < |duOutput| ==> ParseEntry(duOutput[i]).Success?
    requires forall i :: 0 <= i < |duOutput| ==> ParseEntry(duOutput[i]).value.1 >= 0
    requires target in PathsOf(duOutput)
    requires forall i :: 0 <= i < |duOutput| && ParseEntry(duOutput[i]).value.0 == target ==>
               ParseEntry(duOutput[i]).value.1 > 0
    ensures CreateDirDict(duOutput).Success?
    ensures var d := CreateDirDict(duOutput).value;
            && (forall i :: 0 <= i < |d| ==> d[i].1 >= 0)
            && target in Keys(d)
            && Lookup(d, target).value > 0
  {
    var d := CreateDirDict(duOutput).value;
    CreateKeys(duOutput);
    forall i | 0 <= i < |d|
      ensures d[i].1 >= 0
    {
      DictSizeFromLine(duOutput, i);
    }
    assert target in Keys(d);
    var t := IndexOf(d, target);
    DictSizeFromLine(duOutput, t);
  }

  /** On any output `du` can produce for the target (every line well
      formed, no negative size, the target listed with a positive size) the
      run succeeds. */
  lemma RunSucceeds(duOutput: seq<string>, target: string, graphLength: int)
    requires forall i :: 0 <= i < |duOutput| ==> ParseEntry(duOutput[i]).Success?
    requires forall i :: 0 <= i < |duOutput| ==> ParseEntry(duOutput[i]).value.1 >= 0
    requires target in PathsOf(duOutput)
    requires forall i :: 0 <= i < |duOutput| && ParseEntry(duOutput[i]).value.0 == target ==>
               ParseEntry(duOutput[i]).value.1 > 0
    ensures Run(duOutput, target, graphLength).Success?
  {
    DictFromGoodLines(duOutput, target);
    var d := CreateDirDict(duOutput).value;
    PositiveTotal(target, d);
    NeverRaises(target, d, graphLength);
  }

  /** A positive target size and no negative size make a positive total. */
  lemma PositiveTotal(target: string, d: Dict)
    requires DistinctKeys(d) && target in Keys(d)
    requires forall i :: 0 <= i < |d| ==> d[i].1 >= 0
    requires Lookup(d, target).value > 0
    ensures Total(d) > 0
  {
    TotalIncludesTarget(target, d);
    var w := Without(d, target);
    if |w| > 0 {
      SizeAtMostTotal(w, 0);
    }
  }
}

=== FILE: report.dfy ===
/** `display_results` of a2_mcarlos5.py: the target directory's line first,
    without a bar, then one line with a bar for every other directory, in
    dictionary order. Each line is produced as a `Row` instead of being
    printed. */
module Report {
  import opened Wrappers
  import opened Graph
  import opened DirTable

  /** One printed line: the size, the path and, for a subdirectory, its bar. */
  datatype Row = Row(size: int, path: string, bar: Option<string>)

  /** What `display_results` can raise. */
  datatype ReportError =
    | MissingTarget(target: string)              // KeyError on dir_dict[target_dir]
    | ZeroTotal(path: string)                    // ZeroDivisionError in size / total_size
    | BadPercent(path: string, cause: GraphError) // ValueError from percent_to_graph

  /** `sum(dir_dict.values())`: the reference value, the target's own size
      included. */
  function Total(d: Dict): int {
    if |d| == 0 then 0 else d[0].1 + Total(d[1..])
  }

  /** `(size / total_size) * 100`, computed exactly. */
  function Percent(size: int, total: int): real
    requires total != 0
  {
    size as real / total as real * 100.0
  }

  /** The percentage of every non-target item can be drawn: the total is not
      zero and the percentage lies in [0, 100]. */
  ghost predicate AllDrawable(target: string, d: Dict, total: int) {
    forall i :: 0 <= i < |d| && d[i].0 != target ==> total != 0 && InRange(Percent(d[i].1, total))
  }

  /** `row` is the line printed for item `e`: its size, its path and the bar
      of its share of `total`. */
  ghost predicate RowFor(row: Row, e: (string, int), total: int, width: int) {
    && row.size == e.1
    && row.path == e.0
    && total != 0
    && row.bar.Some?
    && PercentToGraph(Percent(e.1, total), width) == Success(row.bar.value)
  }

  /** The loop of `display_results` (lines 102-111) over the items of `d`,
      with `total` and `width` fixed. */
  function SubdirRows(target: string, d: Dict, total: int, width: int): (r: Result<seq<Row>, ReportError>)
    ensures r.Success? <==> AllDrawable(target, d, total)
    ensures r.Failure? ==> (r.error.ZeroTotal? <==> total == 0)
    ensures r.Failure? ==> !r.error.MissingTarget?
    ensures r.Success? ==> |r.value| == |Without(d, target)|
    ensures r.Success? ==> forall i :: 0 <= i < |r.value| ==> RowFor(r.value[i], Without(d, target)[i], total, width)
  {
    if |d| == 0 then Success([])
    else
      var path, size, rest := d[0].0, d[0].1, d[1..];
      DrawableCons(target, d, total);
      if path == target then
        assert Without(d, target) == Without(rest, target);
        SubdirRows(target, rest, total, width)
      else if total == 0 then Failure(ZeroTotal(path))
      else
        match PercentToGraph(Percent(size, total), width)
        case Failure(e) => Failure(BadPercent(path, e))
        case Success(bar) =>
          match SubdirRows(target, rest, total, width)
          case Failure(e) => Failure(e)
          case Success(rows) =>
            assert Without(d, target) == [d[0]] + Without(rest, target);
            var row := Row(size, path, Some(bar));
            assert RowFor(row, d[0], total, width);
            ConsRows(row, rows, d[0], Without(rest, target), total, width);
            Success([row] + rows)
  }

  /** Rows drawn item by item stay drawn when one more row and item go in
      front. */
  lemma ConsRows(row: Row, rows: seq<Row>, e: (string, int), es: Dict, total: int, width: int)
    requires |rows| == |es|
    requires RowFor(row, e, total, width)
    requires forall i :: 0 <= i < |rows| ==> RowFor(rows[i], es[i], total, width)
    ensures forall i :: 0 <= i < |rows| + 1 ==> RowFor(([row] + rows)[i], ([e] + es)[i], total, width)
  {
    forall i | 0 <= i < |rows| + 1
      ensures RowFor(([row] + rows)[i], ([e] + es)[i], total, width)
    {
      if i > 0 {
        assert ([row] + rows)[i] == rows[i - 1] && ([e] + es)[i] == es[i - 1];
      }
    }
  }

  /** Drawability of a non-empty dictionary splits into its first item and
      the rest. */
  lemma DrawableCons(target: string, d: Dict, total: int)
    requires |d| > 0
    ensures AllDrawable(target, d, total) <==>
              && (d[0].0 != target ==> total != 0 && InRange(Percent(d[0].1, total)))
              && AllDrawable(target, d[1..], total)
  {
    assert forall i :: 1 <= i < |d| ==> d[i] == d[1..][i - 1];
    if AllDrawable(target, d[1..], total) && (d[0].0 != target ==> total != 0 && InRange(Percent(d[0].1, total))) {
      forall i | 0 <= i < |d| && d[i].0 != target
        ensures total != 0 && InRange(Percent(d[i].1, total))
      {
        if i > 0 {
          assert d[1..][i - 1] == d[i];
        }
      }
    }
  }

  /** The percentage is the share of `total` that `size` is, scaled to
      100: taking that percentage of the total gives the size back. */
  lemma PercentShare(size: int, total: int)
    requires total != 0
    ensures Percent(size, total) * total as real == 100.0 * size as real
  {
    var q := size as real / total as real;
    assert q * total as real == size as real;
  }

  /** `display_results(target_dir, dir_dict, graph_length)`. */
  function DisplayResults(target: string, d: Dict, graphLength: int): (r: Result<seq<Row>, ReportError>)
    ensures target !in Keys(d) ==> r == Failure(MissingTarget(target))
    ensures r.Failure? && target in Keys(d) ==> !r.error.MissingTarget? && (r.error.ZeroTotal? <==> Total(d) == 0)
    ensures r.Success? <==> target in Keys(d) && AllDrawable(target, d, Total(d))
    ensures r.Success? ==> |r.value| == |Without(d, target)| + 1
    ensures r.Success? ==> r.value[0] == Row(Lookup(d, target).value, target, None)
    ensures r.Success? ==> forall i :: 1 <= i < |r.value| ==>
              RowFor(r.value[i], Without(d, target)[i - 1], Total(d), graphLength)
  {
    var total := Total(d);
    match Lookup(d, target)
    case None => Failure(MissingTarget(target))
    case Some(size) =>
      match SubdirRows(target, d, total, graphLength)
      case Failure(e) => Failure(e)
      case Success(rows) =>
        var head := Row(size, target, None);
        PrependHead(head, rows, Without(d, target), total, graphLength);
        Success([head] + rows)
  }

  /** A line put in front of rows drawn item by item moves each of them one
      line down. */
  lemma PrependHead(head: Row, rows: seq<Row>, es: Dict, total: int, width: int)
    requires |rows| == |es|
    requires forall i :: 0 <= i < |rows| ==> RowFor(rows[i], es[i], total, width)
    ensures forall i :: 1 <= i < |rows| + 1 ==> RowFor(([head] + rows)[i], es[i - 1], total, width)
  {
    forall i | 1 <= i < |rows| + 1
      ensures RowFor(([head] + rows)[i], es[i - 1], total, width)
    {
      assert ([head] + rows)[i] == rows[i - 1];
    }
  }

  /** The sum of a concatenation is the sum of its parts. */
  lemma {:induction false} TotalConcat(a: Dict, b: Dict)
    ensures Total(a + b) == Total(a) + Total(b)
  {
    if |a| > 0 {
      assert (a + b)[1..] == a[1..] + b;
      TotalConcat(a[1..], b);
    } else {
      assert a + b == b;
    }
  }

  /** The reference value counts the target directory itself: it is the
      target's size plus the sizes of all the rows that get a bar. */
  lemma TotalIncludesTarget(target: string, d: Dict)
    requires DistinctKeys(d) && target in Keys(d)
    ensures Total(d) == Lookup(d, target).value + Total(Without(d, target))
  {
    WithoutSplit(d, target);
    TotalSplit(d, IndexOf(d, target));
  }

  /** Taking one item out of a dictionary takes its size out of the total. */
  lemma {:induction false} TotalSplit(d: Dict, t: nat)
    requires t < |d|
    ensures Total(d) == d[t].1 + Total(d[..t] + d[t + 1..])
  {
    if t == 0 {
      assert d[..0] + d[1..] == d[1..];
    } else {
      var rest := d[1..];
      TotalSplit(rest, t - 1);
      var x := rest[..t - 1] + rest[t..];
      assert d[..t] + d[t + 1..] == [d[0]] + x;
      assert ([d[0]] + x)[1..] == x;
    }
  }

  /** With no negative size, every size is at most the total. */
  lemma {:induction false} SizeAtMostTotal(d: Dict, i: nat)
    requires forall j :: 0 <= j < |d| ==> d[j].1 >= 0
    requires i < |d|
    ensures 0 <= d[i].1 <= Total(d)
    ensures Total(d) >= 0
  {
    assert forall j :: 1 <= j < |d| ==> d[j] == d[1..][j - 1];
    if i == 0 {
      if |d| > 1 {
        SizeAtMostTotal(d[1..], 0);
      }
    } else {
      SizeAtMostTotal(d[1..], i - 1);
    }
  }

  /** A share of a positive total is a percentage in [0, 100]. */
  lemma PercentInRange(size: int, total: int)
    requires 0 <= size <= total && total > 0
    ensures InRange(Percent(size, total))
  {
    var q := size as real / total as real;
    assert q * total as real == size as real;
    assert q <= 1.0;
  }

  /** The sum-based reference makes `percent_to_graph` unable to raise: with
      the target present, no negative size and a positive total, the report
      is always produced. */
  lemma NeverRaises(target: string, d: Dict, graphLength: int)
    requires target in Keys(d)
    requires forall j :: 0 <= j < |d| ==> d[j].1 >= 0
    requires Total(d) > 0
    ensures DisplayResults(target, d, graphLength).Success?
  {
    forall i | 0 <= i < |d| && d[i].0 != target
      ensures InRange(Percent(d[i].1, Total(d)))
    {
      SizeAtMostTotal(d, i);
      PercentInRange(d[i].1, Total(d));
    }
  }

  /** A target that is the dictionary's only key (what `du -d 1` prints for
      a directory with no subdirectory) gives its own line and nothing else:
      the loop skips it, so the division never runs, even for a size of 0. */
  lemma TargetOnly(target: string, size: int, graphLength: int)
    ensures DisplayResults(target, [(target, size)], graphLength) == Success([Row(size, target, None)])
  {
    var d := [(target, size)];
    assert d[0].0 == target && d[1..] == [];
    assert IndexOf(d, target) == 0;
    assert Lookup(d, target) == Some(size);
    assert SubdirRows(target, d, Total(d), graphLength) == SubdirRows(target, [], Total(d), graphLength);
    assert SubdirRows(target, d, Total(d), graphLength) == Success([]);
    assert [Row(size, target, None)] + [] == [Row(size, target, None)];
  }

  /** A negative size is accepted when the line is read, but under a
      positive total it gives a negative percentage, and `percent_to_graph`
      raises. */
  lemma NegativeSizeRaises(target: string, d: Dict, graphLength: int, i: nat)
    requires target in Keys(d) && Total(d) > 0
    requires i < |d| && d[i].0 != target && d[i].1 < 0
    ensures DisplayResults(target, d, graphLength).Failure?
    ensures DisplayResults(target, d, graphLength).error.BadPercent?
  {
    NegativePercent(d[i].1, Total(d));
    assert !InRange(Percent(d[i].1, Total(d)));
  }

  /** A negative share of a positive total is a negative percentage. */
  lemma NegativePercent(size: int, total: int)
    requires size < 0 < total
    ensures Percent(size, total) < 0.0
  {
    var q := size as real / total as real;
    assert q * total as real == size as real;
  }

  /** Negative sizes can also cancel out: a target of 0 with two children
      of -1 has a total of -2, each child is half of it, and the report is
      produced with both children drawn at 50 percent. */
  lemma NegativeTotalExample(d: Dict)
    requires d == [("/t", 0), ("/t/a", -1), ("/t/b", -1)]
    ensures DisplayResults("/t", d, 10).Success?
    ensures Total(d) == -2 && Percent(d[1].1, Total(d)) == 50.0 && Percent(d[2].1, Total(d)) == 50.0
  {
    assert d[1..][1..][1..] == [];
    assert Total(d[1..][1..]) == -1;
    assert Total(d) == -2;
    assert d[0].0 == "/t";
    assert Percent(-1, -2) == 50.0;
    forall j | 0 <= j < |d| && d[j].0 != "/t"
      ensures Total(d) != 0 && InRange(Percent(d[j].1, Total(d)))
    {
      assert d[j].1 == -1;
    }
  }

  /** The target moves to the front and every other item keeps its place in
      dictionary order: the item at position `i` of the dictionary is printed
      at line `i + 1` if it comes before the target and at line `i` if after,
      so each key appears exactly once. */
  lemma DisplayLayout(target: string, d: Dict, graphLength: int)
    requires DistinctKeys(d)
    requires DisplayResults(target, d, graphLength).Success?
    ensures var rows, t := DisplayResults(target, d, graphLength).value, IndexOf(d, target);
            && |rows| == |d|
            && rows[0] == Row(d[t].1, target, None)
            && forall i :: 0 <= i < |d| && i != t ==>
                 RowFor(rows[if i < t then i + 1 else i], d[i], Total(d), graphLength)
  {
    var rows, t := DisplayResults(target, d, graphLength).value, IndexOf(d, target);
    WithoutSplit(d, target);
    ShiftRows(rows, d, t, Total(d), graphLength);
  }

  /** Rows drawn for `d` with item `t` skipped, read back against `d`
      itself: an item before `t` sits one line lower, an item after it on
      its own index. */
  lemma ShiftRows(rows: seq<Row>, d: Dict, t: nat, total: int, width: int)
    requires t < |d| && |rows| == |d|
    requires forall i :: 1 <= i < |rows| ==> RowFor(rows[i], (d[..t] + d[t + 1..])[i - 1], total, width)
    ensures forall i :: 0 <= i < |d| && i != t ==> RowFor(rows[if i < t then i + 1 else i], d[i], total, width)
  {
    var w := d[..t] + d[t + 1..];
    forall i | 0 <= i < |d| && i != t
      ensures RowFor(rows[if i < t then i + 1 else i], d[i], total, width)
    {
      if i < t {
        assert w[i] == d[i];
        assert RowFor(rows[i + 1], w[i], total, width);
      } else {
        assert w[i - 1] == d[i];
        assert RowFor(rows[i], w[i - 1], total, width);
      }
    }
  }

  /** A target of 600 with children of 200 and 400, bar width 10: the
      total is 1200, the target line has no bar, and the
      children get round(1.67) = 2 and round(3.33) = 3 `=` characters. */
  lemma ReportExample(d: Dict)
    requires d == [("/root", 600), ("/root/x", 200), ("/root/y", 400)]
    ensures DisplayResults("/root", d, 10) == Success([
              Row(600, "/root", None),
              Row(200, "/root/x", Some("==        ")),
              Row(400, "/root/y", Some("===       "))])
  {
    ExampleTable(d);
    NeverRaises("/root", d, 10);
    DisplayLayout("/root", d, 10);
    var rows := DisplayResults("/root", d, 10).value;
    assert RowFor(rows[1], d[1], 1200, 10) && RowFor(rows[2], d[2], 1200, 10);
    BarExample(200, 1200, 2, "==        ");
    BarExample(400, 1200, 3, "===       ");
    assert rows[1] == Row(200, "/root/x", Some("==        "));
    assert rows[2] == Row(400, "/root/y", Some("===       "));
    assert |rows| == 3 && rows[0] == Row(600, "/root", None);
    assert rows == [rows[0], rows[1], rows[2]];
  }

  /** The example's dictionary: distinct paths, the target first, sizes
      adding up to 1200. */
  lemma ExampleTable(d: Dict)
    requires d == [("/root", 600), ("/root/x", 200), ("/root/y", 400)]
    ensures DistinctKeys(d) && IndexOf(d, "/root") == 0 && "/root" in Keys(d)
    ensures Total(d) == 1200 && forall j :: 0 <= j < |d| ==> d[j].1 >= 0
  {
    assert d[0].0 == "/root";
    assert d[1..][1..][1..] == [];
    assert Total(d[1..][1..]) == 400;
    assert d[1].0 != d[2].0 && d[0].0 != d[1].0 && d[0].0 != d[2].0;
  }

  /** The bar for `size` out of `total` at width 10 has `fill` `=` characters. */
  lemma BarExample(size: int, total: int, fill: nat, bar: string)
    requires (size, total, fill, bar) in {(200, 1200, 2, "==        "), (400, 1200, 3, "===       ")}
    ensures PercentToGraph(Percent(size, total), 10) == Success(bar)
  {
    var x := Scaled(Percent(size, total), 10);
    if size == 200 {
      assert x == 5.0 / 3.0;
    } else {
      assert x == 10.0 / 3.0;
    }
    assert Rounding.NearestEven(x, fill);
    Rounding.NearestEvenUnique(x, fill, FillCount(Percent(size, total), 10));
    assert Repeat('=', fill) + Repeat(' ', 10 - fill) == bar;
  }
}

=== FILE: rounding.dfy ===
/** Python 3's built-in `round` applied to a single number, over exact reals:
    the nearest integer, with a tie going to the even neighbour. */
module Rounding {

  /** True when `n` is an integer nearest to `x` and, if `x` lies exactly
      half-way between two integers, `n` is the even one. */
  predicate NearestEven(x: real, n: int) {
    && n as real - 0.5 <= x <= n as real + 0.5
    && (x == n as real - 0.5 ==> n % 2 == 0)
    && (x == n as real + 0.5 ==> n % 2 == 0)
  }

  /** Round half to even. */
  function RoundHalfEven(x: real): (n: int)
    ensures NearestEven(x, n)
  {
    var f := x.Floor;
    var d := x - f as real;
    if d < 0.5 then f
    else if d > 0.5 then f + 1
    else if f % 2 == 0 then f else f + 1
  }

  /** `NearestEven` pins down a single integer, so it is a complete
      specification of `RoundHalfEven`. */
  lemma NearestEvenUnique(x: real, m: int, n: int)
    requires NearestEven(x, m) && NearestEven(x, n)
    ensures m == n
  {
  }

  /** An integer is left unchanged. */
  lemma RoundExact(k: int)
    ensures RoundHalfEven(k as real) == k
  {
    var n := RoundHalfEven(k as real);
    assert NearestEven(k as real, k);
    NearestEvenUnique(k as real, n, k);
  }

  /** Rounding never reverses the order of two numbers. */
  lemma RoundMonotone(x: real, y: real)
    requires x <= y
    ensures RoundHalfEven(x) <= RoundHalfEven(y)
  {
  }

  /** A number between two integers rounds to an integer between them. */
  lemma RoundWithin(x: real, lo: int, hi: int)
    requires lo as real <= x <= hi as real
    ensures lo <= RoundHalfEven(x) <= hi
  {
    RoundMonotone(lo as real, x);
    RoundMonotone(x, hi as real);
    RoundExact(lo);
    RoundExact(hi);
  }
}

=== FILE: wrappers.dfy ===
/** Failure-carrying datatypes shared by every stage of the model. A Python
    exception raised by the scripts becomes a `Failure`, a normal return a
    `Success`. */
module Wrappers {

  /** A value that may be absent. */
  datatype Option<+T> = None | Some(value: T)

  /** Either the value an operation returns or the error it raises. */
  datatype Result<+R, +E> = Success(value: R) | Failure(error: E)
}
